=== FILE: README.md ===
# Episode tracker import and export, modelled in Dafny

The episode tracker keeps a list of TV episodes with five string fields:
show, episode, title, original air date and watched. Four pieces of its
code turn text into those records and back again. This project models all
four as pure Dafny functions and proves what each one does.

- `parseCSV` (`src/utils/csvParser.ts`) is the lenient CSV reader.
  - It splits the text on line feeds, trims every line and drops blank ones.
  - It tokenizes each line with one in-quotes flag: a `"` toggles the flag and is dropped, and a comma splits only outside quotes.
  - It trims the tokens and builds a record. Missing or empty fields get defaults, and `watched` becomes "yes" or "no".
  - Module `CsvParser` models it. It holds both a functional tokenizer (`RawFields`) and a method (`TokenizeLine`) that runs the source's character loop; the two are proved equal.
- `convertJSONtoCSV` (`src/utils/jsonToCsv.ts`) normalises decoded objects with the same defaults. Module `JsonToCsv` models it. Each object is five optional strings. An array element may also be `null`/`undefined`, on which the conversion throws, or a value without own fields.
- `exportToCSV` (`src/utils/csvUtils.ts`, lines 2-6) writes a fixed header that starts in lower case and one unquoted comma-joined row per episode. Module `CsvExport` models it, with the round trip through `parseCSV` and the case where that round trip breaks.
- The `reader.onload` handler of `handleFileUpload` (`src/pages/Index.tsx`, lines 25-48) is a second, strict importer.
  - It demands an exact header line.
  - It splits the data lines on plain commas.
  - It counts per show how many records there are and how many say "true".
  - Module `Upload` models it, with import failure as a `Result`.

Module `Text` holds the JavaScript string operations the code relies on: `split` and `join` on one character, `trim`, and `toLowerCase`. Module `Episodes` holds the record type and its constants. `Wrappers` holds `Option` and `Result`.

Where the code's behaviour differs from what one might expect, the model follows the code:

- `parseCSV` does not skip a header line. The first line becomes a record like any other (`FirstLineIsRecord`).
- The statistics count watched values that say "true", not "yes". A file written by this app therefore never counts anything as watched.
- The exporter writes the header `show,episode,title,originalAirDate,watched`. The strict importer demands `SHOW,Episode,Title,Original air date,Watched`, so it refuses the exporter's own files (`ExportIsRejected`).

## Model

| member | source | states |
|---|---|---|
| Text.Trim | src/utils/csvParser.ts:4 | the result has no whitespace at either end and is no longer than the input |
| Text.TrimSlice | src/utils/csvParser.ts:4 | trimming removes only whitespace, from the two ends: the result is a contiguous slice and everything cut off is whitespace |
| Text.TrimOfTrimmed | src/utils/csvParser.ts:4 | a value with no whitespace at either end is left unchanged |
| Text.TrimEmptyIff | src/utils/csvParser.ts:5 | a line trims to the empty string exactly when it is whitespace only |
| Text.TrimKeepsOut | src/utils/csvParser.ts:22 | trimming never introduces a character |
| Text.Lower | src/utils/csvParser.ts:36 | lower-casing keeps the length, leaves no ASCII capital, and changes a character only by mapping an ASCII capital to its small letter |
| Text.LowerIdempotent | src/utils/csvParser.ts:36 | lower-casing an already lower-cased value changes nothing |
| Text.LowerIsWord | src/utils/csvParser.ts:36 | a value lower-cases to a word of small ASCII letters exactly when it spells that word with any letters capitalised |
| Text.Split | src/utils/csvParser.ts:3 | `split` gives one piece more than there are separators; no piece contains the separator; the first piece is a prefix of the text |
| Text.JoinSplit | src/pages/Index.tsx:26-28 | joining the pieces of a split with the same separator gives the text back |
| Text.SplitJoin | src/utils/csvUtils.ts:6 | splitting a join of separator-free parts gives the parts back |
| Text.SplitWithoutSep | src/utils/csvParser.ts:3 | a text without the separator splits into itself alone |
| Text.SplitAtSep | src/utils/csvParser.ts:3 | a separator cuts off exactly the piece before it |
| Text.CountAppend | src/utils/csvParser.ts:21 | separators in a concatenation add up |
| Text.CountZero | src/utils/csvParser.ts:21 | no separator counted exactly when none occurs |
| Episodes.SaysYesSpelled | src/utils/csvParser.ts:36 | a value says yes exactly when it is "yes" in some mix of cases |
| Episodes.CanonicalWatchedSaysYes | src/utils/csvParser.ts:36 | on a canonical record the watched value says yes exactly when it is "yes" |
| CsvParser.RawFields | src/utils/csvParser.ts:16-28 | the tokenizer always produces at least one token |
| CsvParser.RawFieldCount | src/utils/csvParser.ts:16-28 | a line gives one token more than it has commas outside quotes |
| CsvParser.Tokens | src/utils/csvParser.ts:12-28 | no contract; the `values` array of one line, stated by `TokenizeLine` (the loop computes it), `TokenCount`, `TokensClean` and `RawFieldsJoin` |
| CsvParser.TokenCount | src/utils/csvParser.ts:16-28 | the trimmed tokens of a line number one more than its commas outside quotes |
| CsvParser.RawFieldsJoin | src/utils/csvParser.ts:19-25 | joining the tokens with commas gives the line with its quote characters removed |
| CsvParser.RawFieldsQuoteFree | src/utils/csvParser.ts:19-20 | no token ever contains a quote character |
| CsvParser.Unquote | src/utils/csvParser.ts:19-20 | a line with its quotes dropped holds no quote |
| CsvParser.QuotedCommaIsText | src/utils/csvParser.ts:21 | inside quotes a comma is an ordinary character: a quote-free rest of the line stays one token |
| CsvParser.QuotedFieldIsOneToken | src/utils/csvParser.ts:19-25 | a quoted field holding commas is read as one token without its quotes |
| CsvParser.QuotedTail | src/utils/csvParser.ts:19-25 | inside quotes, the text up to a closing quote at the end of the line is one token |
| CsvParser.UnquotedIsSplit | src/utils/csvParser.ts:21-23 | on a line without quotes the tokenizer is a plain split on commas |
| CsvParser.TrimAll | src/utils/csvParser.ts:22 | each token is trimmed and the count is kept |
| CsvParser.TokenizeLine | src/utils/csvParser.ts:12-28 | the character loop with its in-quotes flag computes exactly the trimmed tokens of the functional tokenizer |
| CsvParser.Pick | src/utils/csvParser.ts:32-35 | `values[i] || fallback`: the value at position i when it exists and is non-empty, else the fallback |
| CsvParser.RecordOf | src/utils/csvParser.ts:31-37 | the record is canonical (no empty field, watched is "yes" or "no"); each of the first four fields is its token when that exists and is non-empty, else its default; and watched is "yes" exactly when a fifth token exists and lower-cases to "yes" |
| CsvParser.ExtraTokensIgnored | src/utils/csvParser.ts:31-37 | two token lists that agree on the first five give the same record |
| CsvParser.TokensClean | src/utils/csvParser.ts:22 | every token has no whitespace at either end and no quote |
| CsvParser.DefaultsClean | src/utils/csvParser.ts:32-36 | the default values are themselves trimmed and quote-free |
| CsvParser.ParseLine | src/utils/csvParser.ts:12-37 | a line's record is canonical, every field trimmed and quote-free; each of the first four fields is the line's token at that position when it exists and is non-empty, else its default; and watched is "yes" exactly when its fifth token says yes |
| CsvParser.NonBlankLines | src/utils/csvParser.ts:3-5 | the kept lines are at most as many as the lines, each non-empty and trimmed |
| CsvParser.NonBlankLinesOne | src/utils/csvParser.ts:3-5 | a single line is kept, trimmed, exactly when it is not whitespace only |
| CsvParser.NonBlankLinesAppend | src/utils/csvParser.ts:3-5 | the lines kept from two stretches of text are those kept from the first followed by those kept from the second: every non-blank line is kept, in input order |
| CsvParser.ParseLineCommaFree | src/utils/csvParser.ts:21-23 | on a line without quotes none of the first four fields of its record holds a comma |
| CsvParser.ParseLines | src/utils/csvParser.ts:10 | one record per kept line, in order |
| CsvParser.ParseCSV | src/utils/csvParser.ts:1-39 | record k is read from the k-th non-blank trimmed line; every record is canonical |
| CsvParser.NonBlankLinesEmpty | src/utils/csvParser.ts:3-5 | no line is kept exactly when every line is whitespace only |
| CsvParser.AllSpaceJoin | src/utils/csvParser.ts:3 | a text is whitespace only exactly when each of its lines is |
| CsvParser.ParseCSVEmptyIff | src/utils/csvParser.ts:3-7 | the result is empty exactly when the text is whitespace only; nothing else yields no records |
| CsvParser.FirstLineIsRecord | src/utils/csvParser.ts:3-10 | a non-blank first line is not skipped as a header: it is read as the first record |
| JsonToCsv.OrDefault | src/utils/jsonToCsv.ts:11-14 | `item.x || fallback`: a present non-empty value is copied, an absent or empty one gives the fallback |
| JsonToCsv.ConvertItem | src/utils/jsonToCsv.ts:11-15 | the record is canonical; a present non-empty field is copied unchanged and an absent or empty one gets its default; watched is "yes" exactly when the item's value lower-cases to "yes" |
| JsonToCsv.ConvertJSONtoCSV | src/utils/jsonToCsv.ts:10 | one record per item, record k made from item k alone |
| JsonToCsv.ConvertArray | src/utils/jsonToCsv.ts:9-17 | the conversion throws exactly when some element is null or undefined; otherwise one record per element, record k made from element k alone |
| JsonToCsv.ConvertArrayOfObjects | src/utils/jsonToCsv.ts:9-17 | on an array of objects nothing throws and the result is the item-wise conversion |
| JsonToCsv.FieldlessIsDefaults | src/utils/jsonToCsv.ts:11-15 | an element without own fields (number, string, boolean, array) becomes the record of all defaults with watched "no" |
| JsonToCsv.CanonicalIsFixedPoint | src/utils/jsonToCsv.ts:11-15 | a canonical record converts to itself |
| JsonToCsv.ConvertIdempotent | src/utils/jsonToCsv.ts:9-17 | converting the converter's own output again changes nothing |
| JsonToCsv.SameRecordAsCsv | src/utils/jsonToCsv.ts:11-15 | on the same five strings the converter and `parseCSV`'s record mapping agree |
| CsvExport.HeaderText | src/utils/csvUtils.ts:2 | the header line is `show,episode,title,originalAirDate,watched` |
| CsvExport.Rows | src/utils/csvUtils.ts:3-5 | one row per episode, in order |
| CsvExport.Row | src/utils/csvUtils.ts:4 | no contract; the template string of one episode, stated by `RowIsJoin`, `RowSplits` and `RowParsesBack` |
| CsvExport.RowIsJoin | src/utils/csvUtils.ts:4 | a row is the five fields in order joined by commas, written verbatim |
| CsvExport.RowSplits | src/utils/csvUtils.ts:4 | a row of comma-free fields splits back into its five fields |
| CsvExport.ExportText | src/utils/csvUtils.ts:2-6 | the text starts with the header; it is the header alone exactly when there are no episodes; otherwise a line feed follows the header |
| CsvExport.ExportLines | src/utils/csvUtils.ts:6 | splitting the export on line feeds gives the header and then the rows, with no trailing empty line |
| CsvExport.RowWithoutLineFeed | src/utils/csvUtils.ts:4 | a row of printable fields is one line |
| CsvExport.RowTrimmed | src/utils/csvUtils.ts:4 | a row of printable fields is non-empty and trimmed |
| CsvExport.NonBlankLinesOfTrimmed | src/utils/csvParser.ts:3-5 | lines that are all non-empty and trimmed are kept as they are |
| CsvExport.ExportedLinesKept | src/utils/csvParser.ts:3-5 | `parseCSV` keeps every line of an export of printable records, header included |
| CsvExport.RowTokens | src/utils/csvParser.ts:16-28 | a row of printable, comma-free fields tokenizes into exactly its fields |
| CsvExport.RowParses | src/utils/csvUtils.ts:4 | such a row reads back field for field, with watched normalised |
| CsvExport.HeaderParses | src/utils/csvUtils.ts:2 | the header line reads as the record show/episode/title/originalAirDate with watched "no" |
| CsvExport.ParseExported | src/utils/csvUtils.ts:2-6 | `parseCSV` of an export is the header record followed by one record per row |
| CsvExport.RowParsesBack | src/utils/csvUtils.ts:4 | an exportable episode's row reads back as the same episode |
| CsvExport.ExportRoundTrip | src/utils/csvUtils.ts:2-6 | under the round-trip condition (non-empty trimmed fields with no quote, comma or line feed, watched "yes" or "no") parsing the export gives the header record followed by the episodes |
| CsvExport.RowHasExtraTokens | src/utils/csvUtils.ts:4 | a printable record with a comma in one of its first four fields gives a quote-free row of more than five tokens |
| CsvExport.CommaBreaksRoundTrip | src/utils/csvUtils.ts:4 | a comma in any of the first four fields is written unquoted, so the record read back differs from the episode, in every field that held a comma |
| CsvExport.RowTokenCount | src/utils/csvUtils.ts:4 | every comma in a field adds a token to the row beyond the five |
| Upload.HeaderAccepted | src/pages/Index.tsx:26-28 | the header check passes exactly when the untrimmed first line equals `SHOW,Episode,Title,Original air date,Watched` |
| Upload.DataLines | src/pages/Index.tsx:33 | no contract; `lines.slice(1).filter(line => line.trim())`, stated by `KeepNonBlankOne`, `KeepNonBlankAppend` and `HandleUpload` |
| Upload.KeepNonBlank | src/pages/Index.tsx:33 | kept lines are lines of the input and not whitespace only |
| Upload.KeepNonBlankOne | src/pages/Index.tsx:33 | a single line is kept, untrimmed, exactly when it is not whitespace only |
| Upload.KeepNonBlankAppend | src/pages/Index.tsx:33 | the lines kept from two stretches are those kept from the first followed by those kept from the second: every non-blank line is kept, untrimmed and in order |
| Upload.KeepNonBlankKeepsAll | src/pages/Index.tsx:33 | lines none of which is blank are all kept, untrimmed and in order |
| Upload.SplitRecord | src/pages/Index.tsx:34-35 | a record exists exactly when the line has at least four commas; its fields are the first five comma pieces, untrimmed |
| Upload.ParseRecords | src/pages/Index.tsx:33-36 | records exist exactly when every data line has a fifth value, and then record k comes from line k |
| Upload.StrictReadsRow | src/pages/Index.tsx:34-35 | a row of comma-free fields splits back into its record |
| Upload.StrictRecordIsRow | src/pages/Index.tsx:34-35 | a line with exactly four commas is the row of the record read from it |
| Upload.Shows | src/pages/Index.tsx:40 | the shows of the records, one per record, in order |
| Upload.SubStep | src/pages/Index.tsx:44-46 | a record that says "true" is also counted among all records |
| Upload.KeysStep | src/pages/Index.tsx:41-43 | counting a record creates its show's entry |
| Upload.TotalsStep | src/pages/Index.tsx:44 | counting a record raises only its own show's total, by one |
| Upload.SaysTrueSpelled | src/pages/Index.tsx:45 | a value counts as watched exactly when it is "true" in some mix of cases |
| Upload.WatchedStep | src/pages/Index.tsx:45-47 | counting a record raises its show's watched count by one exactly when it says "true" |
| Upload.Tally | src/pages/Index.tsx:41-47 | no contract; the body of the `forEach`, stated by `KeysStep`, `TotalsStep`, `WatchedStep`, `TallyStep` and `TallyTouchesOneShow` |
| Upload.TallyStep | src/pages/Index.tsx:40-48 | one step of the loop keeps the counters in step with the shows seen so far |
| Upload.ShowStats | src/pages/Index.tsx:39-48 | the keys are exactly the shows of the records; a show's total is its number of records and its watched count is its number of records whose value lower-cases to "true", never more than the total |
| Upload.TallyTouchesOneShow | src/pages/Index.tsx:41-44 | counting a record leaves every other show's entry unchanged |
| Upload.TallySum | src/pages/Index.tsx:44 | each record adds exactly one to the sum of the totals |
| Upload.TotalsSumToRecords | src/pages/Index.tsx:40-48 | the totals add up to the number of records |
| Upload.NothingTrue | src/pages/Index.tsx:45 | with no record saying "true", no show is counted as watched |
| Upload.NothingTrueNothingWatched | src/pages/Index.tsx:45-47 | with no record saying "true", every show's watched count is zero |
| Upload.HandleUpload | src/pages/Index.tsx:25-51 | the upload fails on the header exactly when the first line is not the expected header; it succeeds exactly when, in addition, every data line has a fifth value; then the records are read line by line and the statistics are those of the records |
| Upload.ExportIsRejected | src/pages/Index.tsx:28-31 | the exporter's own text is refused on its header |
| Upload.ExpectedHeaderOneLine | src/pages/Index.tsx:28 | the expected header holds no line feed |
| Upload.StrictRow | src/pages/Index.tsx:33-35 | a row of comma-free, line-feed-free fields is one non-blank line that splits back into its record |
| Upload.ParseRecordsOf | src/pages/Index.tsx:33-36 | lines that each split into a given record are read as exactly those records |
| Upload.StrictLines | src/pages/Index.tsx:25-33 | in a text made of the expected header and rows, the first line is the header and the data lines are the rows |
| Upload.StrictRoundTrip | src/pages/Index.tsx:25-51 | the expected header followed by rows of comma-free, line-feed-free fields uploads as exactly those records, with their statistics |
| Upload.TallySkipping | src/pages/Index.tsx:41-47 | no contract; the step as written, which leaves the object unchanged for a name already on it, stated by `ShowStatsSkipping` and `SkippingDropsInherited` |
| Upload.ShowStatsSkipping | src/pages/Index.tsx:41-43 | names already present on the object never get an own entry |
| Upload.SkippingDropsInherited | src/pages/Index.tsx:39-48 | skipping such names gives the intended statistics with those names' entries dropped |
| Upload.ShowStatsAsWritten | src/pages/Index.tsx:39-48 | the statistics object as the code leaves it: the intended statistics without the shows named after `Object.prototype` members |
| Upload.SkippingAgree | src/pages/Index.tsx:41-43 | skipping names that no record carries changes nothing |
| Upload.ShowStatsAgree | src/pages/Index.tsx:39-48 | when no show is named after an `Object.prototype` member the code's statistics object is exactly the intended one |
| Upload.ToStringShowIsLost | src/pages/Index.tsx:41-43 | a show called "toString" with one watched episode gets no entry, where the intended statistics give it 1 of 1 |

## Left out

- The download in `exportToCSV`, lines 8-17: Blob, object URL and anchor click are browser I/O.
- `FileReader`, the React state setters and the JSX of `src/pages/Index.tsx`. The upload is modelled from the text read to the two values handed to `setShowStats` and `setEpisodes`. An upload that fails leaves the state as it was.
- The `console.error` on a bad header. It is logging only.
- Entry order of the statistics object. The model uses a `map`, which has no order.
- The presentation components: `src/components/EpisodeList.tsx`, `ShowDetails.tsx`, `ShowProgress.tsx`, `Stats.tsx` and `StatsCard.tsx`. They are rendering only. So are their percentage figures, which use floating-point division and `Math.round`, and the `indexOf` lookup, which relies on object identity.
- JSON text decoding, and a `jsonData` that is not an array (`map` would not exist). Each field of an object element is modelled as present (`Some`) or absent (`None`, for undefined or null).
- JsonToCsv.ConvertJSONtoCSV: takes objects only; a `null` or `undefined` element makes `item.show` throw and the whole call throw, and an element without own fields reads every property as undefined. `ConvertArray` models both, and `ConvertArrayOfObjects` proves it equal to `ConvertJSONtoCSV` on arrays of objects.
- JsonToCsv.ConvertItem: non-string field values are not modelled, because each field is an optional string. In the source a falsy non-string (`0`, `false`) in show, episode, title or originalAirDate falls back to the default, and a truthy one is copied through unconverted. Any non-string `watched` other than null or undefined, falsy ones such as `false` and `0` included, makes `toLowerCase` throw, because `?.` guards only null and undefined; the whole conversion then throws.
- Upload.HandleUpload: returns the intended statistics `ShowStats`, not the object the code builds. For a show named after an `Object.prototype` member (`toString`, `constructor`, `__proto__`, ...) the code makes no own entry (see Findings; `ShowStatsAsWritten`). `ShowStatsAgree` proves the two equal whenever no show has such a name.
- Upload.StrictRoundTrip: concludes the intended statistics, as `HandleUpload` does; with no show named after an `Object.prototype` member they are the code's too (`ShowStatsAgree`).
- Text.Lower: lower-casing is modelled for ASCII letters only and keeps every other character, whereas `toLowerCase` maps other Unicode letters too and may change the length (U+0130 becomes two characters). The comparisons it feeds are unaffected: the only non-ASCII characters whose lower case holds an ASCII letter are U+212A ("k") and U+0130 ("i" and U+0307), and neither letter is in "yes" or "true", so `SaysYesSpelled` and `SaysTrueSpelled` name exactly the values that pass `toLowerCase() === 'yes'` and `=== 'true'`.
- Text.IsSpace: strings are sequences of Unicode scalar values, not UTF-16 code units. Lone surrogates cannot be represented. The whitespace set of `trim` is the ECMAScript one, with WhiteSpace and LineTerminator.
- Sorting, toggling, clearing and persistence of episodes. None of these is in the modelled files.

## Findings

| source | as written | input that shows it | evidently intended | confidence | as-written member | corrected member |
|---|---|---|---|---|---|---|
| src/pages/Index.tsx:39-43 | `stats` is a plain object literal, so `!stats[ep.show]` is false for names inherited from `Object.prototype`; no own entry is created and the increments land on the inherited value, which `Object.entries` never lists | one data line `toString,1,Pilot,2020-01-01,true` under the expected header | every show gets its own entry, here `toString` with 1 of 1 watched | not executed; medium | Upload.ShowStatsAsWritten, Upload.ToStringShowIsLost | Upload.ShowStats |

=== FILE: csv_export.dfy ===
/** The text `exportToCSV` (src/utils/csvUtils.ts) hands to the download:
    a fixed header line and one unquoted, comma-joined row per episode,
    joined by line feeds. Also what `parseCSV` makes of that text. */
module CsvExport {
  import opened Text
  import opened Episodes
  import opened CsvParser

  /** The column names, in the order the header line lists them. */
  const HeaderColumns: Episode := Episode("show", "episode", "title", "originalAirDate", "watched")

  /** The header line, written like a row of the column names. */
  const Header: string := Row(HeaderColumns)

  /** The header line is exactly `show,episode,title,originalAirDate,watched`. */
  lemma HeaderText()
    ensures Header == "show,episode,title,originalAirDate,watched"
  {
  }

  /** The template row: the five fields verbatim, no quoting or escaping. */
  function Row(ep: Episode): string {
    ep.show + "," + ep.episode + "," + ep.title + "," + ep.originalAirDate + "," + ep.watched
  }

  function Rows(eps: seq<Episode>): (r: seq<string>)
    ensures |r| == |eps|
    ensures forall k :: 0 <= k < |r| ==> r[k] == Row(eps[k])
  {
    seq(|eps|, k requires 0 <= k < |eps| => Row(eps[k]))
  }

  /** `[...headers, ...rows].join('\n')`: the header comes first; an empty
      list gives the header alone; otherwise a line feed follows it and
      there is no trailing line feed. */
  function ExportText(eps: seq<Episode>): (text: string)
    ensures |text| >= |Header| && text[..|Header|] == Header
    ensures eps == [] <==> text == Header
    ensures eps != [] ==> text[|Header|] == '\n'
  {
    var lines := [Header] + Rows(eps);
    assert lines[1..] == Rows(eps);
    Join(lines, '\n')
  }

  /** The record `parseCSV` makes of the header line: a header is just
      another line to it. */
  const HeaderRecord: Episode := Episode("show", "episode", "title", "originalAirDate", No)

  /** A field the exporter writes so that `parseCSV` reads it back as it
      was: non-empty, no whitespace at its ends, no double quote and no line
      feed. It may still hold commas. */
  predicate Printable(v: string) {
    v != [] && Trimmed(v) && '"' !in v && '\n' !in v
  }

  predicate PrintableRecord(ep: Episode) {
    && Printable(ep.show)
    && Printable(ep.episode)
    && Printable(ep.title)
    && Printable(ep.originalAirDate)
    && Printable(ep.watched)
  }

  /** The side condition of the round trip: printable fields without commas
      and a canonical watched value. */
  predicate Exportable(ep: Episode) {
    && PrintableRecord(ep)
    && ',' !in ep.show
    && ',' !in ep.episode
    && ',' !in ep.title
    && ',' !in ep.originalAirDate
    && (ep.watched == Yes || ep.watched == No)
  }

  /** A row is its fields joined by commas. */
  lemma RowIsJoin(ep: Episode)
    ensures Row(ep) == Join(ep.Fields(), ',')
  {
    var fs := ep.Fields();
    assert fs[1..][1..][1..][1..] == [ep.watched];
    assert Join(fs[1..][1..][1..], ',') == ep.originalAirDate + "," + ep.watched;
    assert Join(fs[1..][1..], ',') == ep.title + "," + ep.originalAirDate + "," + ep.watched;
    assert Join(fs[1..], ',') == ep.episode + "," + ep.title + "," + ep.originalAirDate + "," + ep.watched;
  }

  /** A row of comma-free fields splits back into those fields. */
  lemma RowSplits(ep: Episode)
    requires forall k :: 0 <= k < 5 ==> ',' !in ep.Fields()[k]
    ensures Split(Row(ep), ',') == ep.Fields()
  {
    RowIsJoin(ep);
    SplitJoin(ep.Fields(), ',');
  }

  /** Without a line feed in any field, the exported text has exactly one
      line per episode after the header, in input order, and no trailing
      empty line. */
  lemma ExportLines(eps: seq<Episode>)
    requires forall k :: 0 <= k < |eps| ==> '\n' !in Row(eps[k])
    ensures Split(ExportText(eps), '\n') == [Header] + Rows(eps)
  {
    SplitJoin([Header] + Rows(eps), '\n');
  }

  lemma RowWithoutLineFeed(ep: Episode)
    requires PrintableRecord(ep)
    ensures '\n' !in Row(ep)
  {
  }

  lemma RowTrimmed(ep: Episode)
    requires PrintableRecord(ep)
    ensures Row(ep) != [] && Trimmed(Row(ep))
  {
    var r := Row(ep);
    assert r[0] == ep.show[0];
    assert r[|r| - 1] == ep.watched[|ep.watched| - 1];
  }

  lemma {:induction false} NonBlankLinesOfTrimmed(lines: seq<string>)
    requires forall k :: 0 <= k < |lines| ==> lines[k] != [] && Trimmed(lines[k])
    ensures NonBlankLines(lines) == lines
  {
    if |lines| > 0 {
      var t := Trim(lines[0]);
      TrimOfTrimmed(lines[0]);
      assert t == lines[0];
      assert NonBlankLines(lines) == [t] + NonBlankLines(lines[1..]);
      NonBlankLinesOfTrimmed(lines[1..]);
      assert [lines[0]] + lines[1..] == lines;
    }
  }

  /** A row of printable, comma-free fields tokenizes into exactly its
      fields. */
  lemma RowTokens(ep: Episode)
    requires PrintableRecord(ep)
    requires forall k :: 0 <= k < 5 ==> ',' !in ep.Fields()[k]
    ensures Tokens(Row(ep)) == ep.Fields()
  {
    var fs := ep.Fields();
    RowSplits(ep);
    UnquotedIsSplit(Row(ep));
    forall k | 0 <= k < 5 ensures Trim(fs[k]) == fs[k] {
      TrimOfTrimmed(fs[k]);
    }
  }

  /** A row of printable, comma-free fields reads back field for field,
      with the watched value normalised. */
  lemma RowParses(ep: Episode)
    requires PrintableRecord(ep)
    requires forall k :: 0 <= k < 5 ==> ',' !in ep.Fields()[k]
    ensures ParseLine(Row(ep))
            == Episode(ep.show, ep.episode, ep.title, ep.originalAirDate, WatchedFlag(SaysYes(ep.watched)))
  {
    RowTokens(ep);
    assert ParseLine(Row(ep)) == RecordOf(ep.Fields());
  }

  lemma HeaderParses()
    ensures ParseLine(Header) == HeaderRecord
  {
    RowParses(HeaderColumns);
    assert !SaysYes("watched");
  }

  /** The lines `parseCSV` keeps from an export of printable records: all
      of them, header included, untouched by trimming. */
  lemma ExportedLinesKept(eps: seq<Episode>)
    requires forall k :: 0 <= k < |eps| ==> PrintableRecord(eps[k])
    ensures NonBlankLines(Split(ExportText(eps), '\n')) == [Header] + Rows(eps)
  {
    var lines := [Header] + Rows(eps);
    RowWithoutLineFeed(HeaderColumns);
    RowTrimmed(HeaderColumns);
    forall k | 0 <= k < |eps| ensures '\n' !in Row(eps[k]) && Row(eps[k]) != [] && Trimmed(Row(eps[k])) {
      RowWithoutLineFeed(eps[k]);
      RowTrimmed(eps[k]);
    }
    ExportLines(eps);
    NonBlankLinesOfTrimmed(lines);
  }

  /** `parseCSV` of an export of printable records: the header record, then
      one record per episode, each read from that episode's row. */
  lemma ParseExported(eps: seq<Episode>)
    requires forall k :: 0 <= k < |eps| ==> PrintableRecord(eps[k])
    ensures ParseCSV(ExportText(eps)) == [HeaderRecord] + ParseLines(Rows(eps))
  {
    var lines := [Header] + Rows(eps);
    ExportedLinesKept(eps);
    HeaderParses();
    assert lines[1..] == Rows(eps);
    assert ParseLines(lines) == [ParseLine(Header)] + ParseLines(Rows(eps));
  }

  /** An exportable episode's row reads back as the same episode. */
  lemma RowParsesBack(ep: Episode)
    requires Exportable(ep)
    ensures ParseLine(Row(ep)) == ep
  {
    RowParses(ep);
    CanonicalWatchedSaysYes(ep);
  }

  /** Round trip: parsing the export of exportable episodes gives the
      episodes back, after one extra record made from the header line. */
  lemma ExportRoundTrip(eps: seq<Episode>)
    requires forall k :: 0 <= k < |eps| ==> Exportable(eps[k])
    ensures ParseCSV(ExportText(eps)) == [HeaderRecord] + eps
  {
    ParseExported(eps);
    forall k | 0 <= k < |eps| ensures ParseLine(Row(eps[k])) == eps[k] {
      RowParsesBack(eps[k]);
    }
    assert ParseLines(Rows(eps)) == eps;
  }

  /** Commas in the fields of a quote-free episode each add a token to its
      row, on top of the four separators. */
  lemma RowTokenCount(ep: Episode)
    requires '"' !in Row(ep)
    ensures |Tokens(Row(ep))| == 5 + Count(ep.show, ',') + Count(ep.episode, ',') + Count(ep.title, ',')
                                   + Count(ep.originalAirDate, ',') + Count(ep.watched, ',')
  {
    UnquotedIsSplit(Row(ep));
    var c := ',';
    CountAppend(ep.show + "," + ep.episode + "," + ep.title + "," + ep.originalAirDate + ",", ep.watched, c);
    CountAppend(ep.show + "," + ep.episode + "," + ep.title + "," + ep.originalAirDate, ",", c);
    CountAppend(ep.show + "," + ep.episode + "," + ep.title + ",", ep.originalAirDate, c);
    CountAppend(ep.show + "," + ep.episode + "," + ep.title, ",", c);
    CountAppend(ep.show + "," + ep.episode + ",", ep.title, c);
    CountAppend(ep.show + "," + ep.episode, ",", c);
    CountAppend(ep.show + ",", ep.episode, c);
    CountAppend(ep.show, ",", c);
  }

  /** The asymmetry: values are written unquoted, so a comma in any
      of the first four fields of an otherwise printable record makes
      `parseCSV` split its row into more than five tokens, and the record it
      reads back differs from the episode in every field that held a comma. */
  lemma CommaBreaksRoundTrip(ep: Episode)
    requires PrintableRecord(ep)
    requires ',' in ep.show || ',' in ep.episode || ',' in ep.title || ',' in ep.originalAirDate
    ensures |Tokens(Row(ep))| > 5
    ensures var r := ParseCSV(ExportText([ep]));
            && |r| == 2 && r[1] != ep
            && (',' in ep.show ==> r[1].show != ep.show)
            && (',' in ep.episode ==> r[1].episode != ep.episode)
            && (',' in ep.title ==> r[1].title != ep.title)
            && (',' in ep.originalAirDate ==> r[1].originalAirDate != ep.originalAirDate)
  {
    RowHasExtraTokens(ep);
    ParseExported([ep]);
    ParseLineCommaFree(Row(ep));
  }

  /** A row of such a record has no quote and more than five tokens. */
  lemma RowHasExtraTokens(ep: Episode)
    requires PrintableRecord(ep)
    requires ',' in ep.show || ',' in ep.episode || ',' in ep.title || ',' in ep.originalAirDate
    ensures '"' !in Row(ep) && |Tokens(Row(ep))| > 5
  {
    RowTokenCount(ep);
    CountZero(ep.show, ',');
    CountZero(ep.episode, ',');
    CountZero(ep.title, ',');
    CountZero(ep.originalAirDate, ',');
  }
}

=== FILE: csv_parser.dfy ===
/** `parseCSV` (src/utils/csvParser.ts): every non-blank line of the text
    becomes one normalised episode. Fields are separated by commas outside
    double quotes; a double quote only toggles the in-quotes flag and is
    never kept. The first line is an ordinary record, not a skipped header. */
module CsvParser {
  import opened Text
  import opened Episodes

  /** The untrimmed fields of `s` when the scan enters `s` with the in-quotes
      flag set to `inQuotes`. The first element is the field being built. */
  function RawFields(s: string, inQuotes: bool): (r: seq<string>)
    ensures |r| >= 1
  {
    if |s| == 0 then [[]]
    else if s[0] == '"' then RawFields(s[1..], !inQuotes)
    else if s[0] == ',' && !inQuotes then [[]] + RawFields(s[1..], inQuotes)
    else
      var rest := RawFields(s[1..], inQuotes);
      [[s[0]] + rest[0]] + rest[1..]
  }

  /** Commas of `s` reached while the in-quotes flag is clear. */
  function OutsideCommas(s: string, inQuotes: bool): nat {
    if |s| == 0 then 0
    else if s[0] == '"' then OutsideCommas(s[1..], !inQuotes)
    else (if s[0] == ',' && !inQuotes then 1 else 0) + OutsideCommas(s[1..], inQuotes)
  }

  /** `s` with every double quote removed. */
  function Unquote(s: string): (r: string)
    ensures '"' !in r
  {
    if |s| == 0 then []
    else if s[0] == '"' then Unquote(s[1..])
    else [s[0]] + Unquote(s[1..])
  }

  function TrimAll(fs: seq<string>): (r: seq<string>)
    ensures |r| == |fs|
    ensures forall k :: 0 <= k < |r| ==> r[k] == Trim(fs[k])
  {
    seq(|fs|, k requires 0 <= k < |fs| => Trim(fs[k]))
  }

  /** The values array built by the loop of `parseCSV` for one line. */
  function Tokens(line: string): seq<string> {
    TrimAll(RawFields(line, false))
  }

  /** The scan makes one field more than the commas it meets outside quotes. */
  lemma {:induction false} RawFieldCount(s: string, inQuotes: bool)
    ensures |RawFields(s, inQuotes)| == 1 + OutsideCommas(s, inQuotes)
  {
    if |s| > 0 {
      if s[0] == '"' {
        RawFieldCount(s[1..], !inQuotes);
      } else {
        RawFieldCount(s[1..], inQuotes);
      }
    }
  }

  /** Rejoining the fields with commas gives the line with its quotes
      removed: every character other than a quote lands in some field, and
      the only characters dropped besides quotes are the separating commas. */
  lemma {:induction false} RawFieldsJoin(s: string, inQuotes: bool)
    ensures Join(RawFields(s, inQuotes), ',') == Unquote(s)
  {
    if |s| > 0 {
      if s[0] == '"' {
        RawFieldsJoin(s[1..], !inQuotes);
      } else if s[0] == ',' && !inQuotes {
        var rest := RawFields(s[1..], inQuotes);
        RawFieldsJoin(s[1..], inQuotes);
        assert ([[]] + rest)[1..] == rest;
      } else {
        var rest := RawFields(s[1..], inQuotes);
        RawFieldsJoin(s[1..], inQuotes);
        JoinConsFirst(s[0], rest, ',');
      }
    }
  }

  /** No field ever holds a double quote. */
  lemma {:induction false} RawFieldsQuoteFree(s: string, inQuotes: bool)
    ensures forall k :: 0 <= k < |RawFields(s, inQuotes)| ==> '"' !in RawFields(s, inQuotes)[k]
  {
    if |s| > 0 {
      if s[0] == '"' {
        RawFieldsQuoteFree(s[1..], !inQuotes);
      } else {
        RawFieldsQuoteFree(s[1..], inQuotes);
        var rest := RawFields(s[1..], inQuotes);
        var r := RawFields(s, inQuotes);
        if s[0] == ',' && !inQuotes {
          assert forall k :: 1 <= k < |r| ==> r[k] == rest[k - 1];
        } else {
          assert forall k :: 1 <= k < |r| ==> r[k] == rest[k];
          assert r[0] == [s[0]] + rest[0];
        }
      }
    }
  }

  /** While the in-quotes flag is set, a comma is an ordinary character: a
      quote-free remainder is one single field, commas included. */
  lemma {:induction false} QuotedCommaIsText(s: string)
    requires '"' !in s
    ensures RawFields(s, true) == [s]
  {
    if |s| > 0 {
      QuotedCommaIsText(s[1..]);
      assert [s[0]] + s[1..] == s;
    }
  }

  /** A field wrapped in quotes is read back as its contents, commas and all. */
  lemma QuotedFieldIsOneToken(s: string)
    requires '"' !in s
    ensures RawFields(['"'] + s + ['"'], false) == [s]
  {
    var q := ['"'] + s + ['"'];
    assert q[1..] == s + ['"'];
    QuotedTail(s);
  }

  lemma {:induction false} QuotedTail(s: string)
    requires '"' !in s
    ensures RawFields(s + ['"'], true) == [s]
  {
    if |s| == 0 {
      assert s + ['"'] == ['"'];
      assert ['"'][1..] == [];
    } else {
      assert (s + ['"'])[1..] == s[1..] + ['"'];
      QuotedTail(s[1..]);
      assert [s[0]] + s[1..] == s;
    }
  }

  /** Without quotes the scan is a plain split on commas. */
  lemma {:induction false} UnquotedIsSplit(s: string)
    requires '"' !in s
    ensures RawFields(s, false) == Split(s, ',')
  {
    if |s| > 0 {
      UnquotedIsSplit(s[1..]);
    }
  }

  lemma TrimAllSnoc(fs: seq<string>, f: string)
    ensures TrimAll(fs + [f]) == TrimAll(fs) + [Trim(f)]
  {
  }

  /** The field list after a separating comma: the current value is closed
      and a new, empty one is opened. */
  lemma CommaStep(closed: seq<string>, current: string, next: seq<string>)
    requires |next| >= 1
    ensures var rest := [[]] + next;
            closed + [current + rest[0]] + rest[1..] == (closed + [current]) + [[] + next[0]] + next[1..]
  {
    var rest: seq<string> := [[]] + next;
    assert rest[0] == [] && rest[1..] == next;
    assert current + [] == current;
    assert [] + next[0] == next[0];
    assert [next[0]] + next[1..] == next;
  }

  /** The field list after an ordinary character: it joins the current value. */
  lemma CharStep(closed: seq<string>, current: string, c: char, next: seq<string>)
    requires |next| >= 1
    ensures var rest := [[c] + next[0]] + next[1..];
            closed + [current + rest[0]] + rest[1..] == closed + [(current + [c]) + next[0]] + next[1..]
  {
    var rest := [[c] + next[0]] + next[1..];
    assert rest[1..] == next[1..];
    assert current + ([c] + next[0]) == (current + [c]) + next[0];
  }

  /** The loop of `parseCSV` over one line: a quote toggles the flag, a comma
      outside quotes closes the current value, anything else is appended;
      every closed value is trimmed. */
  method TokenizeLine(line: string) returns (values: seq<string>)
    ensures values == Tokens(line)
  {
    values := [];
    var currentValue: string := [];
    var insideQuotes := false;
    var i := 0;
    ghost var all := RawFields(line, false);
    ghost var closed: seq<string> := [];
    ghost var rest := all;
    assert line[0..] == line;
    assert currentValue + all[0] == all[0];
    assert closed + [all[0]] + all[1..] == all;
    while i < |line|
      invariant 0 <= i <= |line|
      invariant values == TrimAll(closed)
      invariant rest == RawFields(line[i..], insideQuotes)
      invariant all == closed + [currentValue + rest[0]] + rest[1..]
    {
      var c := line[i];
      assert line[i..][1..] == line[i + 1..];
      if c == '"' {
        insideQuotes := !insideQuotes;
        rest := RawFields(line[i + 1..], insideQuotes);
      } else if c == ',' && !insideQuotes {
        ghost var next := RawFields(line[i + 1..], insideQuotes);
        CommaStep(closed, currentValue, next);
        TrimAllSnoc(closed, currentValue);
        values := values + [Trim(currentValue)];
        closed := closed + [currentValue];
        currentValue := [];
        rest := next;
      } else {
        ghost var next := RawFields(line[i + 1..], insideQuotes);
        CharStep(closed, currentValue, c, next);
        currentValue := currentValue + [c];
        rest := next;
      }
      i := i + 1;
    }
    assert line[i..] == [];
    assert rest == [[]];
    assert currentValue + rest[0] == currentValue;
    assert closed + [currentValue] + rest[1..] == closed + [currentValue];
    TrimAllSnoc(closed, currentValue);
    values := values + [Trim(currentValue)];
    closed := closed + [currentValue];
  }

  /** `values[i] || fallback`: a missing or empty value gives the fallback. */
  function Pick(values: seq<string>, i: nat, fallback: string): (r: string)
    ensures CopiedOrDefault(At(values, i), r, fallback)
  {
    if i < |values| && values[i] != [] then values[i] else fallback
  }

  /** The object literal `parseCSV` builds from one line's values. */
  function RecordOf(values: seq<string>): (e: Episode)
    ensures Canonical(e)
    ensures CopiedOrDefault(At(values, 0), e.show, UnknownShow)
    ensures CopiedOrDefault(At(values, 1), e.episode, UnknownEpisode)
    ensures CopiedOrDefault(At(values, 2), e.title, UnknownTitle)
    ensures CopiedOrDefault(At(values, 3), e.originalAirDate, NoAirDate)
    ensures e.watched == Yes <==> |values| > 4 && SaysYes(values[4])
  {
    Episode(
      Pick(values, 0, UnknownShow),
      Pick(values, 1, UnknownEpisode),
      Pick(values, 2, UnknownTitle),
      Pick(values, 3, NoAirDate),
      WatchedFlag(|values| > 4 && SaysYes(values[4])))
  }

  /** Values after the fifth never reach the record. */
  lemma ExtraTokensIgnored(a: seq<string>, b: seq<string>)
    requires |a| >= 5 && |b| >= 5 && a[..5] == b[..5]
    ensures RecordOf(a) == RecordOf(b)
  {
    assert forall k :: 0 <= k < 5 ==> a[k] == a[..5][k] && b[k] == b[..5][k];
  }

  /** A value with no whitespace at its ends and no double quote. */
  predicate CleanValue(v: string) {
    Trimmed(v) && '"' !in v
  }

  /** Every field a record takes from a line is trimmed and quote-free. */
  predicate Clean(e: Episode) {
    && CleanValue(e.show)
    && CleanValue(e.episode)
    && CleanValue(e.title)
    && CleanValue(e.originalAirDate)
    && CleanValue(e.watched)
  }

  /** Every token of a line is trimmed and quote-free. */
  lemma TokensClean(line: string)
    ensures forall k :: 0 <= k < |Tokens(line)| ==> CleanValue(Tokens(line)[k])
  {
    var t := Tokens(line);
    RawFieldsQuoteFree(line, false);
    forall k | 0 <= k < |t| ensures CleanValue(t[k]) {
      TrimKeepsOut(RawFields(line, false)[k], '"');
    }
  }

  lemma DefaultsClean()
    ensures CleanValue(UnknownShow) && CleanValue(UnknownEpisode) && CleanValue(UnknownTitle)
    ensures CleanValue(NoAirDate) && CleanValue(Yes) && CleanValue(No)
  {
  }

  /** One record per line: canonical, every field trimmed and quote-free,
      each of the first four fields its token or, when that is missing or
      empty, its default, and `watched` is "yes" exactly when the fifth token says yes in any
      letter case. */
  function ParseLine(line: string): (e: Episode)
    ensures Canonical(e) && Clean(e)
    ensures CopiedOrDefault(At(Tokens(line), 0), e.show, UnknownShow)
    ensures CopiedOrDefault(At(Tokens(line), 1), e.episode, UnknownEpisode)
    ensures CopiedOrDefault(At(Tokens(line), 2), e.title, UnknownTitle)
    ensures CopiedOrDefault(At(Tokens(line), 3), e.originalAirDate, NoAirDate)
    ensures e.watched == Yes <==> var t := Tokens(line); |t| > 4 && SaysYes(t[4])
  {
    var t := Tokens(line);
    TokensClean(line);
    DefaultsClean();
    RecordOf(t)
  }

  /** On a line without quotes every comma separates, so none of the first
      four fields of its record holds a comma. */
  lemma ParseLineCommaFree(line: string)
    requires '"' !in line
    ensures var e := ParseLine(line);
            ',' !in e.show && ',' !in e.episode && ',' !in e.title && ',' !in e.originalAirDate
  {
    var t := Tokens(line);
    UnquotedIsSplit(line);
    forall k | 0 <= k < |t| ensures ',' !in t[k] {
      TrimKeepsOut(RawFields(line, false)[k], ',');
    }
    assert ',' !in UnknownShow && ',' !in UnknownEpisode && ',' !in UnknownTitle && ',' !in NoAirDate;
  }

  /** A line gives one token more than its commas outside quotes. */
  lemma TokenCount(line: string)
    ensures |Tokens(line)| == 1 + OutsideCommas(line, false)
  {
    RawFieldCount(line, false);
  }

  /** `text.split('\n').map(trim).filter(nonempty)`. */
  function NonBlankLines(lines: seq<string>): (r: seq<string>)
    ensures |r| <= |lines|
    ensures forall k :: 0 <= k < |r| ==> r[k] != [] && Trimmed(r[k])
  {
    if |lines| == 0 then []
    else if Trim(lines[0]) == [] then NonBlankLines(lines[1..])
    else [Trim(lines[0])] + NonBlankLines(lines[1..])
  }

  /** A single line is kept, trimmed, exactly when it is not whitespace
      only. */
  lemma NonBlankLinesOne(line: string)
    ensures NonBlankLines([line]) == if AllSpace(line) then [] else [Trim(line)]
  {
    TrimEmptyIff(line);
    assert [line][1..] == [];
  }

  /** The filter works line by line: the lines kept from two stretches of
      text are those kept from the first followed by those kept from the
      second, so the kept lines keep their input order. */
  lemma {:induction false} NonBlankLinesAppend(a: seq<string>, b: seq<string>)
    ensures NonBlankLines(a + b) == NonBlankLines(a) + NonBlankLines(b)
  {
    if |a| == 0 {
      assert a + b == b;
    } else {
      assert (a + b)[0] == a[0];
      assert (a + b)[1..] == a[1..] + b;
      NonBlankLinesAppend(a[1..], b);
    }
  }

  /** The `.map` step: one record per kept line, in order. */
  function ParseLines(lines: seq<string>): (r: seq<Episode>)
    ensures |r| == |lines|
    ensures forall k :: 0 <= k < |lines| ==> r[k] == ParseLine(lines[k])
  {
    if |lines| == 0 then [] else [ParseLine(lines[0])] + ParseLines(lines[1..])
  }

  /** `parseCSV(text)`: every line that is not whitespace only, trimmed and
      read as a record; every record is canonical. */
  function ParseCSV(text: string): (r: seq<Episode>)
    ensures var lines := NonBlankLines(Split(text, '\n'));
            |r| == |lines| && forall k :: 0 <= k < |r| ==> r[k] == ParseLine(lines[k])
    ensures forall k :: 0 <= k < |r| ==> Canonical(r[k])
  {
    ParseLines(NonBlankLines(Split(text, '\n')))
  }

  /** The kept lines are empty exactly when every line is whitespace only. */
  lemma {:induction false} NonBlankLinesEmpty(lines: seq<string>)
    ensures NonBlankLines(lines) == [] <==> forall k :: 0 <= k < |lines| ==> AllSpace(lines[k])
  {
    if |lines| > 0 {
      NonBlankLinesEmpty(lines[1..]);
      TrimEmptyIff(lines[0]);
      assert forall k :: 1 <= k < |lines| ==> lines[k] == lines[1..][k - 1];
    }
  }

  /** A text joined from pieces with line feeds is whitespace only exactly
      when every piece is. */
  lemma {:induction false} AllSpaceJoin(parts: seq<string>)
    ensures AllSpace(Join(parts, '\n')) <==> forall k :: 0 <= k < |parts| ==> AllSpace(parts[k])
  {
    if |parts| > 1 {
      AllSpaceJoin(parts[1..]);
      var rest := Join(parts[1..], '\n');
      var j := parts[0] + ['\n'] + rest;
      assert forall k :: 0 <= k < |parts[0]| ==> j[k] == parts[0][k];
      assert forall k :: 0 <= k < |rest| ==> j[|parts[0]| + 1 + k] == rest[k];
      assert forall k :: 1 <= k < |parts| ==> parts[k] == parts[1..][k - 1];
      if AllSpace(j) {
        assert AllSpace(parts[0]);
        assert AllSpace(rest);
      }
    }
  }

  /** Blank or whitespace-only input yields no records, and any other input
      yields at least one. */
  lemma ParseCSVEmptyIff(text: string)
    ensures ParseCSV(text) == [] <==> AllSpace(text)
  {
    var lines := Split(text, '\n');
    JoinSplit(text, '\n');
    AllSpaceJoin(lines);
    NonBlankLinesEmpty(lines);
  }

  /** The first line is not skipped as a header: when it has any
      non-whitespace character, it becomes the first record. */
  lemma FirstLineIsRecord(text: string)
    requires Trim(Split(text, '\n')[0]) != []
    ensures |ParseCSV(text)| >= 1
    ensures ParseCSV(text)[0] == ParseLine(Trim(Split(text, '\n')[0]))
  {
  }
}

=== FILE: episodes.dfy ===
/** The episode record shared by the importers, the exporter and the
    statistics. */
module Episodes {
  import opened Wrappers
  import opened Text

  /** One tracked episode. Every field is a string; after either importer
      normalises a record, `watched` is "yes" or "no". */
  datatype Episode = Episode(
    show: string,
    episode: string,
    title: string,
    originalAirDate: string,
    watched: string)
  {
    /** The fields in export column order. */
    function Fields(): (fs: seq<string>)
      ensures |fs| == 5
    {
      [show, episode, title, originalAirDate, watched]
    }
  }

  const UnknownShow: string := "Unknown Show"
  const UnknownEpisode: string := "Unknown Episode"
  const UnknownTitle: string := "Unknown Title"
  const NoAirDate: string := "N/A"
  const Yes: string := "yes"
  const No: string := "no"

  /** The canonical watched value for a flag. */
  function WatchedFlag(b: bool): string {
    if b then Yes else No
  }

  /** `v?.toLowerCase() === 'yes'`. */
  predicate SaysYes(v: string) {
    Lower(v) == Yes
  }

  /** Only "yes" in any mix of cases says yes. */
  lemma SaysYesSpelled(v: string)
    ensures SaysYes(v) <==>
            |v| == 3 && (v[0] == 'y' || v[0] == 'Y') && (v[1] == 'e' || v[1] == 'E') && (v[2] == 's' || v[2] == 'S')
  {
    LowerIsWord(v, Yes);
  }

  /** The value at position `i`, or `undefined` past the end. */
  function At(values: seq<string>, i: nat): Option<string> {
    if i < |values| then Some(values[i]) else None
  }

  /** `field` is the value `v || fallback` gives: a present, non-empty value
      copied as it is, or else the fallback. */
  predicate CopiedOrDefault(v: Option<string>, field: string, fallback: string) {
    if v.Some? && v.value != [] then field == v.value else field == fallback
  }

  /** What both normalisers guarantee: no field is empty and `watched` is one
      of the two canonical values. */
  predicate Canonical(e: Episode) {
    && e.show != []
    && e.episode != []
    && e.title != []
    && e.originalAirDate != []
    && (e.watched == Yes || e.watched == No)
  }

  /** The canonical values say yes exactly when they are "yes". */
  lemma CanonicalWatchedSaysYes(e: Episode)
    requires Canonical(e)
    ensures SaysYes(e.watched) <==> e.watched == Yes
  {
    assert Lower(Yes) == Yes;
    assert Lower(No) == No;
  }
}

=== FILE: json_to_csv.dfy ===
/** `convertJSONtoCSV` (src/utils/jsonToCsv.ts): despite its name it maps
    already-decoded objects to episode records, one for one, filling the
    same defaults as the CSV importer. */
module JsonToCsv {
  import opened Wrappers
  import opened Episodes
  import CsvParser

  /** One decoded JSON object: each property is a string or absent
      (`undefined`/`null`). */
  datatype Item = Item(
    show: Option<string>,
    episode: Option<string>,
    title: Option<string>,
    originalAirDate: Option<string>,
    watched: Option<string>)

  /** `v || fallback` for a string-or-undefined value. */
  function OrDefault(v: Option<string>, fallback: string): (r: string)
    ensures CopiedOrDefault(v, r, fallback)
  {
    match v
    case Some(s) => if s != [] then s else fallback
    case None => fallback
  }

  /** `v?.toLowerCase() === 'yes'`: absent never says yes. */
  predicate ItemSaysYes(v: Option<string>) {
    v.Some? && SaysYes(v.value)
  }

  /** The record built for one object: canonical, every present non-empty
      string copied unchanged (not trimmed), every absent or empty one
      replaced by its default, and `watched` "yes" exactly when the object's
      `watched` lower-cases to "yes". */
  function ConvertItem(item: Item): (e: Episode)
    ensures Canonical(e)
    ensures CopiedOrDefault(item.show, e.show, UnknownShow)
    ensures CopiedOrDefault(item.episode, e.episode, UnknownEpisode)
    ensures CopiedOrDefault(item.title, e.title, UnknownTitle)
    ensures CopiedOrDefault(item.originalAirDate, e.originalAirDate, NoAirDate)
    ensures e.watched == Yes <==> ItemSaysYes(item.watched)
  {
    Episode(
      OrDefault(item.show, UnknownShow),
      OrDefault(item.episode, UnknownEpisode),
      OrDefault(item.title, UnknownTitle),
      OrDefault(item.originalAirDate, NoAirDate),
      WatchedFlag(ItemSaysYes(item.watched)))
  }

  /** `convertJSONtoCSV(jsonData)`: same length, element k depends on item k
      only. */
  function ConvertJSONtoCSV(items: seq<Item>): (r: seq<Episode>)
    ensures |r| == |items|
    ensures forall k :: 0 <= k < |r| ==> r[k] == ConvertItem(items[k])
  {
    if |items| == 0 then [] else [ConvertItem(items[0])] + ConvertJSONtoCSV(items[1..])
  }

  /** One element of the decoded array: `null` or `undefined`, a value
      without own fields (a number, string, boolean or array, on which
      every property reads `undefined`), or an object. */
  datatype Element = Nullish | Fieldless | Object(item: Item)

  /** What `item.show` and the other reads see on a non-nullish element. */
  function ItemOf(el: Element): Item {
    match el
    case Object(item) => item
    case _ => Item(None, None, None, None, None)
  }

  /** `jsonData.map(...)` on any decoded array: it throws (`None`) exactly
      when some element is `null` or `undefined`, since `item.show` then has
      no object to read; otherwise record k is converted from element k. */
  function ConvertArray(elems: seq<Element>): (r: Option<seq<Episode>>)
    ensures r.None? <==> exists k :: 0 <= k < |elems| && elems[k].Nullish?
    ensures r.Some? ==> |r.value| == |elems|
    ensures r.Some? ==> forall k :: 0 <= k < |elems| ==> r.value[k] == ConvertItem(ItemOf(elems[k]))
  {
    if |elems| == 0 then Some([])
    else if elems[0].Nullish? then None
    else match ConvertArray(elems[1..])
      case None => None
      case Some(rest) => Some([ConvertItem(ItemOf(elems[0]))] + rest)
  }

  /** On arrays of objects the two agree: nothing throws and the result is
      the item-wise conversion. */
  lemma {:induction false} ConvertArrayOfObjects(items: seq<Item>)
    ensures ConvertArray(seq(|items|, k requires 0 <= k < |items| => Object(items[k])))
            == Some(ConvertJSONtoCSV(items))
  {
    var elems := seq(|items|, k requires 0 <= k < |items| => Object(items[k]));
    var r := ConvertArray(elems);
    assert forall k :: 0 <= k < |elems| ==> !elems[k].Nullish?;
    assert r.Some?;
    assert r.value == ConvertJSONtoCSV(items);
  }

  /** An element without own fields becomes the all-defaults record. */
  lemma FieldlessIsDefaults()
    ensures ConvertItem(ItemOf(Fieldless)) == Episode(UnknownShow, UnknownEpisode, UnknownTitle, NoAirDate, No)
  {
  }

  /** An episode as the object it would be serialised to. */
  function AsItem(e: Episode): Item {
    Item(Some(e.show), Some(e.episode), Some(e.title), Some(e.originalAirDate), Some(e.watched))
  }

  /** A canonical record converts to itself. */
  lemma CanonicalIsFixedPoint(e: Episode)
    requires Canonical(e)
    ensures ConvertItem(AsItem(e)) == e
  {
    CanonicalWatchedSaysYes(e);
  }

  /** Converting the converter's own output again changes nothing. */
  lemma {:induction false} ConvertIdempotent(items: seq<Item>)
    ensures var once := ConvertJSONtoCSV(items);
            ConvertJSONtoCSV(seq(|once|, k requires 0 <= k < |once| => AsItem(once[k]))) == once
  {
    var once := ConvertJSONtoCSV(items);
    var again := ConvertJSONtoCSV(seq(|once|, k requires 0 <= k < |once| => AsItem(once[k])));
    forall k | 0 <= k < |once| ensures again[k] == once[k] {
      CanonicalIsFixedPoint(once[k]);
    }
  }

  /** For the same five values both importers build the same record: the
      CSV line's values, read as an object with those properties, convert to
      the record `parseCSV` makes of them. */
  lemma SameRecordAsCsv(values: seq<string>)
    ensures ConvertItem(Item(At(values, 0), At(values, 1), At(values, 2), At(values, 3), At(values, 4)))
            == CsvParser.RecordOf(values)
  {
  }
}

=== FILE: text.dfy ===
/** String primitives of JavaScript that the importers and the exporter rely
    on: `String.prototype.trim`, `split` with a one-character separator,
    `Array.prototype.join`, and `toLowerCase` restricted to ASCII letters. */
module Text {

  /** The characters `trim` removes: ECMAScript WhiteSpace (tab, vertical tab,
      form feed, space, no-break space, the byte-order mark and the other
      space separators of Unicode category Zs) and LineTerminator (line feed,
      carriage return, line and paragraph separator). */
  predicate IsSpace(c: char) {
    if c <= ' ' then '\t' <= c <= '\r' || c == ' '
    else if c < '\U{00A0}' then false
    else
      || c == '\U{00A0}' || c == '\U{1680}' || '\U{2000}' <= c <= '\U{200A}'
      || c == '\U{2028}' || c == '\U{2029}' || c == '\U{202F}' || c == '\U{205F}'
      || c == '\U{3000}' || c == '\U{FEFF}'
  }

  predicate AllSpace(s: string) {
    forall k :: 0 <= k < |s| ==> IsSpace(s[k])
  }

  /** Neither end of `s` is whitespace. */
  predicate Trimmed(s: string) {
    s == [] || (!IsSpace(s[0]) && !IsSpace(s[|s| - 1]))
  }

  /** Leading whitespace removed: the result does not start with whitespace. */
  function TrimStart(s: string): (r: string)
    ensures |r| <= |s|
    ensures r == [] || !IsSpace(r[0])
  {
    if |s| > 0 && IsSpace(s[0]) then TrimStart(s[1..]) else s
  }

  /** Trailing whitespace removed: the result does not end with whitespace
      and starts where `s` does. */
  function TrimEnd(s: string): (r: string)
    ensures |r| <= |s|
    ensures r == [] || (r[0] == s[0] && !IsSpace(r[|r| - 1]))
  {
    if |s| > 0 && IsSpace(s[|s| - 1]) then TrimEnd(s[..|s| - 1]) else s
  }

  /** What `TrimStart` drops is whitespace, and it keeps a suffix. */
  lemma {:induction false} TrimStartSlice(s: string)
    ensures var r := TrimStart(s); r == s[|s| - |r|..] && AllSpace(s[..|s| - |r|])
  {
    if |s| > 0 && IsSpace(s[0]) {
      TrimStartSlice(s[1..]);
      var r := TrimStart(s);
      assert s[|s| - |r|..] == s[1..][|s| - 1 - |r|..];
      assert s[..|s| - |r|] == [s[0]] + s[1..][..|s| - 1 - |r|];
    }
  }

  /** What `TrimEnd` drops is whitespace, and it keeps a prefix. */
  lemma {:induction false} TrimEndSlice(s: string)
    ensures var r := TrimEnd(s); r == s[..|r|] && AllSpace(s[|r|..])
  {
    if |s| > 0 && IsSpace(s[|s| - 1]) {
      var t := s[..|s| - 1];
      TrimEndSlice(t);
      var r := TrimEnd(s);
      assert r == TrimEnd(t);
      assert s[..|r|] == t[..|r|];
      assert s[|r|..] == t[|r|..] + [s[|s| - 1]];
    }
  }

  /** `s.trim()`: no whitespace at either end of the result. */
  function Trim(s: string): (r: string)
    ensures Trimmed(r)
    ensures |r| <= |s|
  {
    TrimEnd(TrimStart(s))
  }

  /** `s.trim()` is a contiguous piece of `s` with only whitespace on either
      side of it. */
  lemma TrimSlice(s: string)
    ensures var i := |s| - |TrimStart(s)|; var r := Trim(s);
              i + |r| <= |s| && r == s[i..i + |r|] && AllSpace(s[..i]) && AllSpace(s[i + |r|..])
  {
    var t := TrimStart(s);
    var r := TrimEnd(t);
    var i := |s| - |t|;
    TrimStartSlice(s);
    TrimEndSlice(t);
    assert r == Trim(s);
    assert t == s[i..];
    assert s[i + |r|..] == t[|r|..];
  }

  /** Trimming leaves an already trimmed string alone. */
  lemma TrimOfTrimmed(s: string)
    requires Trimmed(s)
    ensures Trim(s) == s
  {
  }

  /** `s.trim()` is falsy exactly when `s` is whitespace only. */
  lemma TrimEmptyIff(s: string)
    ensures Trim(s) == [] <==> AllSpace(s)
  {
    var r := Trim(s);
    var i := |s| - |TrimStart(s)|;
    TrimSlice(s);
    if r == [] {
      forall k | 0 <= k < |s| ensures IsSpace(s[k]) {
        assert k < i ==> s[k] == s[..i][k];
      }
    } else {
      assert s[i] == r[0];
    }
  }

  /** Trimming cannot introduce a character. */
  lemma TrimKeepsOut(s: string, c: char)
    requires c !in s
    ensures c !in Trim(s)
  {
    var r := Trim(s);
    var i := |s| - |TrimStart(s)|;
    TrimSlice(s);
    assert forall k :: 0 <= k < |r| ==> r[k] == s[i + k];
  }

  function LowerChar(c: char): char {
    if 'A' <= c <= 'Z' then (c as int + 32) as char else c
  }

  /** `s.toLowerCase()` on ASCII letters; every other character is kept. */
  function Lower(s: string): (r: string)
    ensures |r| == |s|
    ensures forall k :: 0 <= k < |r| ==> !('A' <= r[k] <= 'Z')
    ensures forall k :: 0 <= k < |r| ==> r[k] == s[k] || ('A' <= s[k] <= 'Z' && r[k] as int == s[k] as int + 32)
  {
    seq(|s|, k requires 0 <= k < |s| => LowerChar(s[k]))
  }

  /** The values that lower-case to a word of small ASCII letters are
      exactly its spellings with any letters capitalised. */
  lemma LowerIsWord(s: string, w: string)
    requires forall k :: 0 <= k < |w| ==> 'a' <= w[k] <= 'z'
    ensures Lower(s) == w <==>
            |s| == |w| && forall k :: 0 <= k < |s| ==> s[k] == w[k] || s[k] as int == w[k] as int - 32
  {
    if |s| == |w| && forall k :: 0 <= k < |s| ==> s[k] == w[k] || s[k] as int == w[k] as int - 32 {
      forall k | 0 <= k < |s| ensures Lower(s)[k] == w[k] {
        assert Lower(s)[k] == LowerChar(s[k]);
      }
    }
  }

  /** Lower-casing twice is lower-casing once. */
  lemma LowerIdempotent(s: string)
    ensures Lower(Lower(s)) == Lower(s)
  {
    var once := Lower(s);
    forall k | 0 <= k < |s| ensures Lower(once)[k] == once[k] {
      assert !('A' <= once[k] <= 'Z');
    }
  }

  /** Number of occurrences of `c` in `s`. */
  function Count(s: string, c: char): nat {
    if |s| == 0 then 0 else (if s[0] == c then 1 else 0) + Count(s[1..], c)
  }

  lemma {:induction false} CountAppend(a: string, b: string, c: char)
    ensures Count(a + b, c) == Count(a, c) + Count(b, c)
  {
    if |a| == 0 {
      assert a + b == b;
    } else {
      assert (a + b)[1..] == a[1..] + b;
      CountAppend(a[1..], b, c);
    }
  }

  lemma {:induction false} CountZero(s: string, c: char)
    ensures Count(s, c) == 0 <==> c !in s
  {
    if |s| > 0 {
      CountZero(s[1..], c);
      assert s == [s[0]] + s[1..];
    }
  }

  /** `s.split(sep)`: the pieces between occurrences of `sep`; the empty
      string gives one empty piece. */
  function Split(s: string, sep: char): (r: seq<string>)
    ensures |r| == 1 + Count(s, sep)
    ensures forall k :: 0 <= k < |r| ==> sep !in r[k]
    ensures |r[0]| <= |s| && r[0] == s[..|r[0]|]
  {
    if |s| == 0 then [[]]
    else
      var rest := Split(s[1..], sep);
      if s[0] == sep then [[]] + rest
      else
        assert [s[0]] + rest[0] == s[..1 + |rest[0]|];
        [[s[0]] + rest[0]] + rest[1..]
  }

  /** `parts.join(sep)`. */
  function Join(parts: seq<string>, sep: char): string {
    if |parts| == 0 then []
    else if |parts| == 1 then parts[0]
    else parts[0] + [sep] + Join(parts[1..], sep)
  }

  /** Prepending a character to the first part prepends it to the joined text. */
  lemma JoinConsFirst(c: char, parts: seq<string>, sep: char)
    requires |parts| >= 1
    ensures Join([[c] + parts[0]] + parts[1..], sep) == [c] + Join(parts, sep)
  {
    var ps := [[c] + parts[0]] + parts[1..];
    assert ps[1..] == parts[1..];
  }

  /** Joining the pieces of a split gives the text back. */
  lemma {:induction false} JoinSplit(s: string, sep: char)
    ensures Join(Split(s, sep), sep) == s
  {
    if |s| > 0 {
      var rest := Split(s[1..], sep);
      JoinSplit(s[1..], sep);
      if s[0] == sep {
        assert ([[]] + rest)[1..] == rest;
        assert s == [sep] + s[1..];
      } else {
        JoinConsFirst(s[0], rest, sep);
        assert s == [s[0]] + s[1..];
      }
    }
  }

  /** A text without the separator splits into itself alone. */
  lemma {:induction false} SplitWithoutSep(s: string, sep: char)
    requires sep !in s
    ensures Split(s, sep) == [s]
  {
    if |s| > 0 {
      SplitWithoutSep(s[1..], sep);
      assert [s[0]] + s[1..] == s;
    }
  }

  /** The piece before the first separator is split off intact. */
  lemma {:induction false} SplitAtSep(p: string, t: string, sep: char)
    requires sep !in p
    ensures Split(p + [sep] + t, sep) == [p] + Split(t, sep)
  {
    if |p| == 0 {
      assert p + [sep] + t == [sep] + t;
      assert ([sep] + t)[1..] == t;
    } else {
      var s := p + [sep] + t;
      assert s[1..] == p[1..] + [sep] + t;
      SplitAtSep(p[1..], t, sep);
      assert [p[0]] + p[1..] == p;
    }
  }

  /** Splitting the join of separator-free parts gives the parts back. */
  lemma {:induction false} SplitJoin(parts: seq<string>, sep: char)
    requires |parts| >= 1
    requires forall k :: 0 <= k < |parts| ==> sep !in parts[k]
    ensures Split(Join(parts, sep), sep) == parts
  {
    if |parts| == 1 {
      SplitWithoutSep(parts[0], sep);
    } else {
      SplitJoin(parts[1..], sep);
      SplitAtSep(parts[0], Join(parts[1..], sep), sep);
      assert [parts[0]] + parts[1..] == parts;
    }
  }
}

=== FILE: upload.dfy ===
/** The `reader.onload` handler of `handleFileUpload` (src/pages/Index.tsx,
    lines 25-48): a second, stricter CSV import. It demands an exact header
    line, splits every other non-blank line on plain commas, and counts per
    show how many records there are and how many say "true". */
module Upload {
  import opened Wrappers
  import opened Text
  import opened Episodes
  import CsvExport

  const ExpectedHeader: string := "SHOW,Episode,Title,Original air date,Watched"

  /** One show's counters. */
  datatype Stat = Stat(total: nat, watched: nat)

  /** Why an upload leaves the episodes and statistics as they were: the
      header check logs and returns; a record without a fifth value makes
      `ep.watched.toLowerCase()` throw before either state setter runs. */
  datatype UploadError = InvalidHeader | MissingWatched

  /** The two values handed to `setEpisodes` and `setShowStats`. */
  datatype Uploaded = Uploaded(episodes: seq<Episode>, stats: map<string, Stat>)

  /** `lines[0].split(',').join(',') === ExpectedHeader`: the split and join
      cancel, so the untrimmed first line must match exactly. */
  function HeaderAccepted(first: string): (ok: bool)
    ensures ok <==> first == ExpectedHeader
  {
    JoinSplit(first, ',');
    Join(Split(first, ','), ',') == ExpectedHeader
  }

  /** `lines.filter(line => line.trim())`: the lines that are not whitespace
      only, in order and untrimmed. */
  function KeepNonBlank(lines: seq<string>): (r: seq<string>)
    ensures |r| <= |lines|
    ensures forall k :: 0 <= k < |r| ==> r[k] in lines && !AllSpace(r[k])
  {
    if |lines| == 0 then []
    else if Trim(lines[0]) == [] then KeepNonBlank(lines[1..])
    else
      TrimEmptyIff(lines[0]);
      [lines[0]] + KeepNonBlank(lines[1..])
  }

  /** Lines none of which is blank are all kept, unchanged and in order. */
  lemma {:induction false} KeepNonBlankKeepsAll(lines: seq<string>)
    requires forall k :: 0 <= k < |lines| ==> !AllSpace(lines[k])
    ensures KeepNonBlank(lines) == lines
  {
    if |lines| > 0 {
      TrimEmptyIff(lines[0]);
      KeepNonBlankKeepsAll(lines[1..]);
      assert [lines[0]] + lines[1..] == lines;
    }
  }

  /** A single line is kept, untrimmed, exactly when it is not whitespace
      only. */
  lemma KeepNonBlankOne(line: string)
    ensures KeepNonBlank([line]) == if AllSpace(line) then [] else [line]
  {
    TrimEmptyIff(line);
    assert [line][1..] == [];
  }

  /** The filter works line by line: the lines kept from two stretches are
      those kept from the first followed by those kept from the second, so
      the kept lines keep their input order. */
  lemma {:induction false} KeepNonBlankAppend(a: seq<string>, b: seq<string>)
    ensures KeepNonBlank(a + b) == KeepNonBlank(a) + KeepNonBlank(b)
  {
    if |a| == 0 {
      assert a + b == b;
    } else {
      assert (a + b)[0] == a[0];
      assert (a + b)[1..] == a[1..] + b;
      KeepNonBlankAppend(a[1..], b);
    }
  }

  /** The data lines of an uploaded text: every line after the first that
      is not whitespace only. */
  function DataLines(text: string): seq<string> {
    KeepNonBlank(Split(text, '\n')[1..])
  }

  /** `const [show, episode, title, originalAirDate, watched] = line.split(',')`.
      `None` when the line has fewer than five values, so that `watched` is
      undefined; values after the fifth are dropped. */
  function SplitRecord(line: string): (r: Option<Episode>)
    ensures r.Some? <==> Count(line, ',') >= 4
    ensures r.Some? ==> r.value.Fields() == Split(line, ',')[..5]
  {
    var f := Split(line, ',');
    if |f| < 5 then None else Some(Episode(f[0], f[1], f[2], f[3], f[4]))
  }

  /** Every line has a fifth comma-separated value. */
  predicate AllHaveWatched(lines: seq<string>) {
    forall k :: 0 <= k < |lines| ==> Count(lines[k], ',') >= 4
  }

  /** `eps` are the records the lines split into, one per line. */
  predicate ReadAs(lines: seq<string>, eps: seq<Episode>) {
    |eps| == |lines| && forall k :: 0 <= k < |lines| ==> SplitRecord(lines[k]) == Some(eps[k])
  }

  /** The records of all data lines, or `None` as soon as one of them lacks
      a `watched` value. */
  function ParseRecords(lines: seq<string>): (r: Option<seq<Episode>>)
    ensures r.Some? <==> AllHaveWatched(lines)
    ensures r.Some? ==> ReadAs(lines, r.value)
  {
    if |lines| == 0 then Some([])
    else
      var first := SplitRecord(lines[0]);
      var rest := ParseRecords(lines[1..]);
      assert forall k :: 1 <= k < |lines| ==> lines[k] == lines[1..][k - 1];
      if first.None? || rest.None? then None
      else Some([first.value] + rest.value)
  }

  /** A row the exporter writes from comma-free, line-feed-free fields is
      split back into the same record by the strict importer. */
  lemma StrictReadsRow(ep: Episode)
    requires forall k :: 0 <= k < 5 ==> ',' !in ep.Fields()[k]
    ensures SplitRecord(CsvExport.Row(ep)) == Some(ep)
  {
    CsvExport.RowSplits(ep);
  }

  /** A line with exactly four commas is the row of the record read from it. */
  lemma StrictRecordIsRow(line: string)
    requires Count(line, ',') == 4
    ensures SplitRecord(line).Some? && CsvExport.Row(SplitRecord(line).value) == line
  {
    var f := Split(line, ',');
    assert f[..5] == f;
    CsvExport.RowIsJoin(SplitRecord(line).value);
    JoinSplit(line, ',');
  }

  /** `ep.watched.toLowerCase() === 'true'`. */
  predicate SaysTrue(v: string) {
    Lower(v) == "true"
  }

  /** Only "true" in any mix of cases counts as watched. */
  lemma SaysTrueSpelled(v: string)
    ensures SaysTrue(v) <==>
            |v| == 4 && (v[0] == 't' || v[0] == 'T') && (v[1] == 'r' || v[1] == 'R')
            && (v[2] == 'u' || v[2] == 'U') && (v[3] == 'e' || v[3] == 'E')
  {
    LowerIsWord(v, "true");
  }

  /** The shows of the records, in order. */
  function Shows(eps: seq<Episode>): (r: seq<string>)
    ensures |r| == |eps|
    ensures forall k :: 0 <= k < |eps| ==> r[k] == eps[k].show
  {
    if |eps| == 0 then [] else Shows(eps[..|eps| - 1]) + [eps[|eps| - 1].show]
  }

  /** The shows of the records whose watched value says "true", in order. */
  function TrueShows(eps: seq<Episode>): seq<string> {
    if |eps| == 0 then []
    else if SaysTrue(eps[|eps| - 1].watched) then TrueShows(eps[..|eps| - 1]) + [eps[|eps| - 1].show]
    else TrueShows(eps[..|eps| - 1])
  }

  /** One step of the `forEach`: create the show's entry if missing, count
      the record, and count it as watched when it says "true". */
  function Tally(m: map<string, Stat>, ep: Episode): map<string, Stat> {
    var s := if ep.show in m then m[ep.show] else Stat(0, 0);
    m[ep.show := Stat(s.total + 1, s.watched + (if SaysTrue(ep.watched) then 1 else 0))]
  }

  /** The keys of `m` are exactly the shows. */
  ghost predicate KeysMatch(m: map<string, Stat>, shows: seq<string>) {
    forall s :: s in m <==> s in shows
  }

  /** Every show's `total` is the number of times it occurs. */
  ghost predicate TotalsMatch(m: map<string, Stat>, shows: seq<string>) {
    forall s :: s in m ==> m[s].total == multiset(shows)[s]
  }

  /** Every show's `watched` is the number of times it occurs among the
      records that say "true". */
  ghost predicate WatchedMatch(m: map<string, Stat>, trueShows: seq<string>) {
    forall s :: s in m ==> m[s].watched == multiset(trueShows)[s]
  }

  /** The statistics a sequence of shows and watched shows calls for. */
  ghost predicate CountsMatch(m: map<string, Stat>, shows: seq<string>, trueShows: seq<string>) {
    && multiset(trueShows) <= multiset(shows)
    && KeysMatch(m, shows)
    && TotalsMatch(m, shows)
    && WatchedMatch(m, trueShows)
    && (forall s :: s in m ==> m[s].watched <= m[s].total)
  }

  /** The shows of the records that say "true" stay among all the shows. */
  lemma SubStep(shows: seq<string>, trueShows: seq<string>, show: string, says: bool)
    requires multiset(trueShows) <= multiset(shows)
    ensures multiset(if says then trueShows + [show] else trueShows) <= multiset(shows + [show])
  {
    assert multiset(shows + [show]) == multiset(shows) + multiset{show};
    assert multiset(trueShows + [show]) == multiset(trueShows) + multiset{show};
  }

  /** Counting a record adds its show to the keys. */
  lemma KeysStep(m: map<string, Stat>, shows: seq<string>, ep: Episode)
    requires KeysMatch(m, shows)
    ensures KeysMatch(Tally(m, ep), shows + [ep.show])
  {
    assert forall s :: s in shows + [ep.show] <==> s in shows || s == ep.show;
  }

  /** Counting a record raises its show's total by one. */
  lemma TotalsStep(m: map<string, Stat>, shows: seq<string>, ep: Episode)
    requires KeysMatch(m, shows) && TotalsMatch(m, shows)
    ensures TotalsMatch(Tally(m, ep), shows + [ep.show])
  {
    assert multiset(shows + [ep.show]) == multiset(shows) + multiset{ep.show};
    forall s | s in Tally(m, ep) ensures Tally(m, ep)[s].total == multiset(shows + [ep.show])[s] {
      if s == ep.show && s !in m {
        assert multiset(shows)[s] == 0;
      }
    }
  }

  /** Counting a record that says "true" raises its show's watched count
      by one; any other record leaves every watched count alone. */
  lemma WatchedStep(m: map<string, Stat>, shows: seq<string>, trueShows: seq<string>, ep: Episode)
    requires KeysMatch(m, shows) && multiset(trueShows) <= multiset(shows) && WatchedMatch(m, trueShows)
    ensures WatchedMatch(Tally(m, ep), if SaysTrue(ep.watched) then trueShows + [ep.show] else trueShows)
  {
    var trueShows' := if SaysTrue(ep.watched) then trueShows + [ep.show] else trueShows;
    assert multiset(trueShows') == multiset(trueShows) + (if SaysTrue(ep.watched) then multiset{ep.show} else multiset{});
    forall s | s in Tally(m, ep) ensures Tally(m, ep)[s].watched == multiset(trueShows')[s] {
      if s == ep.show && s !in m {
        assert multiset(shows)[s] == 0;
      }
    }
  }

  /** Counting one more record keeps the counters in step with the shows. */
  lemma TallyStep(m: map<string, Stat>, shows: seq<string>, trueShows: seq<string>, ep: Episode)
    requires CountsMatch(m, shows, trueShows)
    ensures CountsMatch(Tally(m, ep), shows + [ep.show],
                        if SaysTrue(ep.watched) then trueShows + [ep.show] else trueShows)
  {
    var m' := Tally(m, ep);
    var shows' := shows + [ep.show];
    var trueShows' := if SaysTrue(ep.watched) then trueShows + [ep.show] else trueShows;
    SubStep(shows, trueShows, ep.show, SaysTrue(ep.watched));
    KeysStep(m, shows, ep);
    TotalsStep(m, shows, ep);
    WatchedStep(m, shows, trueShows, ep);
    forall s | s in m' ensures m'[s].watched <= m'[s].total {
      assert multiset(trueShows')[s] <= multiset(shows')[s];
    }
  }

  /** The statistics object after the `forEach`: one entry per distinct
      show; `total` is how often the show occurs, `watched` how many of its
      records say "true" in any letter case, never more than `total`. */
  function ShowStats(eps: seq<Episode>): (m: map<string, Stat>)
    ensures CountsMatch(m, Shows(eps), TrueShows(eps))
  {
    if |eps| == 0 then map[]
    else
      var p := eps[..|eps| - 1];
      TallyStep(ShowStats(p), Shows(p), TrueShows(p), eps[|eps| - 1]);
      Tally(ShowStats(p), eps[|eps| - 1])
  }

  /** Some show of a non-empty statistics object. */
  ghost function SomeShow(m: map<string, Stat>): (k: string)
    requires |m| > 0
    ensures k in m && |m - {k}| == |m| - 1
  {
    var k :| k in m;
    assert (m - {k}).Keys == m.Keys - {k};
    k
  }

  /** The sum of the `total` counters over all shows. */
  ghost function SumTotals(m: map<string, Stat>): nat
    decreases |m|
  {
    if |m| == 0 then 0
    else m[SomeShow(m)].total + SumTotals(m - {SomeShow(m)})
  }

  /** Any show's counter can be taken out of the sum first. */
  lemma {:induction false} SumTotalsRemove(m: map<string, Stat>, k: string)
    requires k in m
    ensures SumTotals(m) == m[k].total + SumTotals(m - {k})
    decreases |m|
  {
    var j := SomeShow(m);
    if j != k {
      assert (m - {k}).Keys == m.Keys - {k};
      SumTotalsRemove(m - {j}, k);
      SumTotalsRemove(m - {k}, j);
      assert m - {j} - {k} == m - {k} - {j};
    }
  }

  /** Counting one record touches only that record's show, whose total
      goes up by one. */
  lemma TallyTouchesOneShow(m: map<string, Stat>, ep: Episode)
    ensures Tally(m, ep) - {ep.show} == m - {ep.show}
    ensures Tally(m, ep)[ep.show].total == (if ep.show in m then m[ep.show].total else 0) + 1
  {
  }

  /** Counting one record raises the sum of the totals by one. */
  lemma TallySum(m: map<string, Stat>, ep: Episode)
    ensures SumTotals(Tally(m, ep)) == SumTotals(m) + 1
  {
    TallyTouchesOneShow(m, ep);
    SumTotalsRemove(Tally(m, ep), ep.show);
    if ep.show in m {
      SumTotalsRemove(m, ep.show);
    } else {
      assert m - {ep.show} == m;
    }
  }

  /** The totals add up to the number of records. */
  lemma {:induction false} TotalsSumToRecords(eps: seq<Episode>)
    ensures SumTotals(ShowStats(eps)) == |eps|
  {
    if |eps| > 0 {
      var p := eps[..|eps| - 1];
      TotalsSumToRecords(p);
      TallySum(ShowStats(p), eps[|eps| - 1]);
    }
  }

  /** `handleFileUpload`'s `onload` body, from the text read to the values
      handed to the two state setters. The statistics are the intended
      ones; the object the code builds differs only for shows named after
      an `Object.prototype` member (`ShowStatsAsWritten`, `ShowStatsAgree`). */
  function HandleUpload(text: string): (r: Result<Uploaded, UploadError>)
    ensures r == Failure(InvalidHeader) <==> Split(text, '\n')[0] != ExpectedHeader
    ensures r.Success? <==> Split(text, '\n')[0] == ExpectedHeader && AllHaveWatched(DataLines(text))
    ensures r.Success? ==> ReadAs(DataLines(text), r.value.episodes)
                           && r.value.stats == ShowStats(r.value.episodes)
  {
    var lines := Split(text, '\n');
    if !HeaderAccepted(lines[0]) then Failure(InvalidHeader)
    else
      match ParseRecords(DataLines(text))
      case None => Failure(MissingWatched)
      case Some(eps) => Success(Uploaded(eps, ShowStats(eps)))
  }

  /** The exporter's own file is refused by the importer: its header
      starts in lower case. */
  lemma ExportIsRejected(eps: seq<Episode>)
    ensures HandleUpload(CsvExport.ExportText(eps)) == Failure(InvalidHeader)
  {
    var text := CsvExport.ExportText(eps);
    var first := Split(text, '\n')[0];
    CsvExport.HeaderText();
    assert text[0] == CsvExport.Header[0] == 's';
    assert ExpectedHeader[0] == 'S';
    if first != [] {
      assert first[0] == text[0];
    }
  }

  /** The expected header is a single line. */
  lemma ExpectedHeaderOneLine()
    ensures '\n' !in ExpectedHeader
  {
    assert forall i :: 0 <= i < |ExpectedHeader| ==> ExpectedHeader[i] != '\n';
  }

  /** A row of comma-free, line-feed-free values is one non-blank line
      that splits back into its record. */
  lemma StrictRow(ep: Episode)
    requires forall i :: 0 <= i < 5 ==> ',' !in ep.Fields()[i] && '\n' !in ep.Fields()[i]
    ensures '\n' !in CsvExport.Row(ep) && !AllSpace(CsvExport.Row(ep))
    ensures SplitRecord(CsvExport.Row(ep)) == Some(ep)
  {
    var fs := ep.Fields();
    assert '\n' !in fs[0] && '\n' !in fs[1] && '\n' !in fs[2] && '\n' !in fs[3] && '\n' !in fs[4];
    StrictReadsRow(ep);
    assert CsvExport.Row(ep)[|ep.show|] == ',';
  }

  /** Lines every one of which splits into a given record parse into
      exactly those records. */
  lemma ParseRecordsOf(lines: seq<string>, eps: seq<Episode>)
    requires ReadAs(lines, eps)
    ensures ParseRecords(lines) == Some(eps)
  {
    assert AllHaveWatched(lines);
    var r := ParseRecords(lines);
    assert r.value == eps;
  }

  /** The text of a header line followed by rows of comma-free,
      line-feed-free values: its first line is the header and its data
      lines are the rows. */
  lemma StrictLines(eps: seq<Episode>)
    requires forall k, i :: 0 <= k < |eps| && 0 <= i < 5 ==> ',' !in eps[k].Fields()[i] && '\n' !in eps[k].Fields()[i]
    ensures var text := Join([ExpectedHeader] + CsvExport.Rows(eps), '\n');
            Split(text, '\n')[0] == ExpectedHeader && DataLines(text) == CsvExport.Rows(eps)
  {
    var rows := CsvExport.Rows(eps);
    var lines := [ExpectedHeader] + rows;
    forall k | 0 <= k < |rows|
      ensures '\n' !in rows[k] && !AllSpace(rows[k])
    {
      StrictRow(eps[k]);
    }
    ExpectedHeaderOneLine();
    assert forall k :: 0 <= k < |lines| ==> '\n' !in lines[k] by {
      assert forall k :: 1 <= k < |lines| ==> lines[k] == rows[k - 1];
    }
    SplitJoin(lines, '\n');
    assert lines[1..] == rows;
    KeepNonBlankKeepsAll(rows);
  }

  /** A header line followed by rows of comma-free, line-feed-free values
      is read back as exactly those records, with their statistics. */
  lemma StrictRoundTrip(eps: seq<Episode>)
    requires forall k, i :: 0 <= k < |eps| && 0 <= i < 5 ==> ',' !in eps[k].Fields()[i] && '\n' !in eps[k].Fields()[i]
    ensures HandleUpload(Join([ExpectedHeader] + CsvExport.Rows(eps), '\n')) == Success(Uploaded(eps, ShowStats(eps)))
  {
    var rows := CsvExport.Rows(eps);
    var text := Join([ExpectedHeader] + rows, '\n');
    StrictLines(eps);
    assert ReadAs(rows, eps) by {
      forall k | 0 <= k < |rows| ensures SplitRecord(rows[k]) == Some(eps[k]) {
        StrictRow(eps[k]);
      }
    }
    ParseRecordsOf(rows, eps);
    var r := HandleUpload(text);
    assert r.Success?;
    assert r.value.episodes == eps;
  }

  /** Records none of which says "true" leave every show at zero watched. */
  lemma {:induction false} NothingTrue(eps: seq<Episode>)
    requires forall k :: 0 <= k < |eps| ==> !SaysTrue(eps[k].watched)
    ensures TrueShows(eps) == []
  {
    if |eps| > 0 {
      NothingTrue(eps[..|eps| - 1]);
    }
  }

  /** With no record saying "true", every progress bar starts empty. */
  lemma NothingTrueNothingWatched(eps: seq<Episode>)
    requires forall k :: 0 <= k < |eps| ==> !SaysTrue(eps[k].watched)
    ensures forall s :: s in ShowStats(eps) ==> ShowStats(eps)[s].watched == 0
  {
    NothingTrue(eps);
  }

  /** The names a plain object literal inherits from `Object.prototype`;
      every one of them reads as a truthy value on `{}`. */
  const InheritedNames: set<string> := {
    "constructor", "__defineGetter__", "__defineSetter__", "hasOwnProperty",
    "__lookupGetter__", "__lookupSetter__", "isPrototypeOf", "propertyIsEnumerable",
    "toString", "valueOf", "__proto__", "toLocaleString"
  }

  /** The `forEach` step as the code runs it on a plain object, for the
      names in `inherited`: for one of them `!stats[ep.show]` is false, so
      no own entry is made and the increments land on the inherited value,
      which `Object.entries` never lists. */
  function TallySkipping(m: map<string, Stat>, ep: Episode, inherited: set<string>): map<string, Stat> {
    if ep.show in inherited then m else Tally(m, ep)
  }

  /** The statistics object's own entries when the names in `inherited`
      are already present on it. */
  function ShowStatsSkipping(eps: seq<Episode>, inherited: set<string>): (m: map<string, Stat>)
    ensures forall s :: s in m ==> s !in inherited
  {
    if |eps| == 0 then map[]
    else TallySkipping(ShowStatsSkipping(eps[..|eps| - 1], inherited), eps[|eps| - 1], inherited)
  }

  /** `a` is `b` with the keys in `inherited` dropped. */
  ghost predicate Restricts(a: map<string, Stat>, b: map<string, Stat>, inherited: set<string>) {
    && (forall s :: s in a <==> s in b && s !in inherited)
    && (forall s :: s in a ==> a[s] == b[s])
  }

  /** Skipping and counting one record keeps the restriction. */
  lemma SkipStep(a: map<string, Stat>, b: map<string, Stat>, ep: Episode, inherited: set<string>)
    requires Restricts(a, b, inherited)
    ensures Restricts(TallySkipping(a, ep, inherited), Tally(b, ep), inherited)
  {
  }

  /** With the inherited names skipped, the statistics are the intended ones
      with those names' entries dropped. */
  lemma {:induction false} SkippingDropsInherited(eps: seq<Episode>, inherited: set<string>)
    ensures Restricts(ShowStatsSkipping(eps, inherited), ShowStats(eps), inherited)
  {
    if |eps| > 0 {
      var p := eps[..|eps| - 1];
      SkippingDropsInherited(p, inherited);
      SkipStep(ShowStatsSkipping(p, inherited), ShowStats(p), eps[|eps| - 1], inherited);
    }
  }

  /** The statistics object's own entries as the code leaves them. */
  function ShowStatsAsWritten(eps: seq<Episode>): (m: map<string, Stat>)
    ensures forall s :: s in m <==> s in ShowStats(eps) && s !in InheritedNames
    ensures forall s :: s in m ==> m[s] == ShowStats(eps)[s]
  {
    SkippingDropsInherited(eps, InheritedNames);
    ShowStatsSkipping(eps, InheritedNames)
  }

  /** Skipping names that no record carries changes nothing. */
  lemma {:induction false} SkippingAgree(eps: seq<Episode>, inherited: set<string>)
    requires forall k :: 0 <= k < |eps| ==> eps[k].show !in inherited
    ensures ShowStatsSkipping(eps, inherited) == ShowStats(eps)
  {
    if |eps| > 0 {
      SkippingAgree(eps[..|eps| - 1], inherited);
    }
  }

  /** When no show is named after an `Object.prototype` member, the code's
      statistics object is exactly the intended one. */
  lemma ShowStatsAgree(eps: seq<Episode>)
    requires forall k :: 0 <= k < |eps| ==> eps[k].show !in InheritedNames
    ensures ShowStatsAsWritten(eps) == ShowStats(eps)
  {
    SkippingAgree(eps, InheritedNames);
  }

  /** A show called "toString" gets no progress entry, though it has one
      episode, watched. */
  lemma ToStringShowIsLost()
    ensures var eps := [Episode("toString", "1", "Pilot", "2020-01-01", "true")];
            "toString" !in ShowStatsAsWritten(eps) && ShowStats(eps)["toString"] == Stat(1, 1)
  {
    var eps := [Episode("toString", "1", "Pilot", "2020-01-01", "true")];
    assert "toString" in InheritedNames;
    assert eps[..0] == [];
    assert Shows(eps) == ["toString"];
    assert SaysTrue("true");
    assert TrueShows(eps) == ["toString"];
  }
}

=== FILE: wrappers.dfy ===
/** Optional values and results with an error, for the JavaScript
    `undefined` values and the thrown or reported failures of the model. */
module Wrappers {

  /** `None` stands for a JavaScript `undefined` or `null`. */
  datatype Option<+T> = None | Some(value: T)

  /** The outcome of an operation that either succeeds with a value or fails
      with an error and leaves the caller's state untouched. */
  datatype Result<+R, +E> = Success(value: R) | Failure(error: E)
}
